=== FILE: README.md ===
# Trading simulator ledger, in Dafny

This project models the portfolio simulation state machine of `auto_trader`, the
`TradingSimulator` class. The class keeps a per-day ledger for one fixed
`BASE_TARGET` pair:

- the trades, holdings and mark-to-market values of the base currency and the
  target asset;
- a portfolio value for each day;
- an action log.

Each call to `step` advances one day. A BUY opens a position only when nothing
is held. A SELL closes a position only when something is held. Any other action
carries the previous day's trades forward. Each step records the transaction
cost it charged, which is 0.15% to open, 0.25% to close and 0 to carry
forward. It then re-marks the day and returns a reward whose sign depends on
whether the target is held after the trade.

The model uses exact rationals (`real`) and is purely functional:

- `Ledger` holds the per-day records. A day is a `Row` holding that day's trades,
  holdings and values as `Pair`s of base and target amounts, plus its portfolio
  value and its action-log entry.
- `Simulator` models the constructor, `reset`, `_buy`, `_sell`,
  `_update_holdings_and_values` and `step`. `Step` is a function from a state and
  an action to the next state, the reward and the `currently_holding` flag.
  `StepNamed` takes the action as a string.
- `Invariants` holds the invariant of reachable states (`Consistent`) and the
  stronger invariant for a trial with positive capital and positive prices
  (`Invested`). `Run` steps through a sequence of actions, and the invariants
  are proved over runs by induction on the number of steps.
- `Properties` proves the branch policy, the opening and closing conversions,
  the sign of the reward and the worked three-day trial. It also proves what
  happens after a `reset` that follows a trial which ended holding the target.

## Model

| member | source | states |
|---|---|---|
| Simulator.ParseAction | trading_simulator.py:45 | a name is accepted exactly when it is "BUY" or "SELL", and the accepted action's name is the input; any other name is refused with InvalidAction |
| Simulator.ActionCode | trading_simulator.py:50 | the action-log entry is 1 exactly for BUY and -1 for SELL |
| Simulator.StepNamed | trading_simulator.py:45-59 | an unknown action name is refused and produces no state; a valid one performs exactly the step of the action it names, which advances the cursor by one and logs 1 for "BUY" and -1 for "SELL" on the stepped day |
| Simulator.New | trading_simulator.py:13-25 | the constructor's ledger is all zero for every quoted day, the cursor is on day 0, and value and trading cost are the arguments |
| Simulator.Reset | trading_simulator.py:27-36 | reset rewinds the cursor to 0 and zeroes every trade, holding, value, portfolio value and action entry, but keeps `value` and the last charged cost |
| Simulator.CarriedTrade | trading_simulator.py:47-54 | a carry-forward copies the previous day's trades; on day 0 the previous day is day 0 itself, whose base trade has just been seeded with `value` |
| Simulator.BuyTrade | trading_simulator.py:124-139 | an opening BUY (day 0, or previous target holding zero) gives up exactly `value` in base, buys target units worth `value` at the price, so base trade + price × target trade = 0, and charges 0.15%; otherwise the carried trades at cost 0 |
| Simulator.SellTrade | trading_simulator.py:106-122 | a closing SELL (previous target holding h > 0) sells exactly h target for h × price base, so base trade + price × target trade = 0, and charges 0.25%; otherwise the carried trades at cost 0 |
| Simulator.UpdateHoldingsAndValues | trading_simulator.py:86-103 | each holding is non-negative, positive exactly when the day's trade is positive and then equal to it; the target is valued at price × holding and the base value equals the base holding |
| Simulator.Reward | trading_simulator.py:67-74 | a held target on day 0 earns exactly the negated cost; otherwise, for a cost below one, the reward has the sign of the day's return when holding and the opposite sign when not, and for a non-negative cost it is never larger in size than the return |
| Simulator.Step | trading_simulator.py:38-84 | the cursor advances by one; only the stepped day's row changes; the action is logged; the cost is 0 for a carry-forward and 0.15% or 0.25% for a trade; a carry-forward copies the previous trades, an opening BUY trades (−value, value / close) and a closing SELL with previous target holding h trades (h × close, −h); holdings follow the trade; the portfolio value is base value plus target value; `value` becomes the base holding; the holding flag says the target holding is positive; the reward is the one `Reward` describes for that flag |
| Invariants.Run | trading_simulator.py:47-83 | stepping through k actions moves the cursor by k, returns one reward and one flag per action, and leaves the days before the start untouched |
| Invariants.NewIsConsistent | trading_simulator.py:20-25 | the constructor's state satisfies the ledger invariant; with positive capital and prices, the capital starts in exactly one symbol |
| Invariants.ResetIsConsistent | trading_simulator.py:31-36 | every state reset returns satisfies the ledger invariant |
| Invariants.StepKeepsConsistent | trading_simulator.py:61-65 | a step books its day (holdings from trades, values at the day's close, portfolio = sum, action ±1) and keeps every later day blank |
| Invariants.StepKeepsInvested | trading_simulator.py:86-139 | from an invested state (all closes positive, capital in exactly one symbol), every step leaves exactly one of base and target positive |
| Invariants.RunBooksEachDay | trading_simulator.py:50-83 | a run logs the i-th action on day cursor + i, and the i-th returned holding flag is true exactly when that day's target holding is positive |
| Invariants.RunKeepsConsistent | trading_simulator.py:61-65 | every run keeps the ledger invariant |
| Invariants.RunKeepsInvested | trading_simulator.py:86-139 | every run from an invested state stays invested |
| Invariants.TrialInvariant | trading_simulator.py:61-68 | in a trial with positive capital and prices, every stepped day has non-negative holdings, exactly one symbol positive, portfolio value = base value + target value, and a holding flag that is true exactly when the target is positive |
| Properties.ActionNamesRoundTrip | trading_simulator.py:45-50 | each action's name parses back to that action, and its log entry is 1 exactly for "BUY" |
| Properties.CarryForwardKeepsHoldings | trading_simulator.py:106-139 | BUY while holding or SELL while not holding repeats the previous day's trades and holdings and its holding flag, charges nothing, keeps `value`, and re-marks the same holdings at the day's close |
| Properties.FirstDaySellKeepsCapital | trading_simulator.py:47-59 | a SELL on day 0 of a fresh ledger keeps the whole capital in base, holds no target, charges nothing, and earns the negated return |
| Properties.OpeningBuyConverts | trading_simulator.py:124-134 | an opening BUY with positive capital and price trades −value base for value/price target, holds only target, empties `value`, charges 0.15%, and books a portfolio value equal to the converted capital |
| Properties.ClosingSellConverts | trading_simulator.py:106-117 | a closing SELL trades −h target for h × price base, holds only base, sets `value` to the proceeds, charges 0.25%, and books the proceeds as the portfolio value |
| Properties.ConfiguredCostIsOverwritten | trading_simulator.py:56-74 | the cost stored before a step (the constructor's argument or the previous step's charge) has no effect on the step's result |
| Properties.ChargedCostIsARate | trading_simulator.py:113-138 | the cost a step charges is 0, 0.15% or 0.25%, and always below one |
| Properties.RewardFollowsExposure | trading_simulator.py:67-74 | after day 0, holding the target earns a reward with the sign of the day's return; not holding earns a reward with the opposite sign |
| Properties.FirstDayBuyCostsOnly | trading_simulator.py:69-72 | a BUY on day 0 always opens and charges 0.15%; when it leaves the target held, the reward is exactly −0.0015 |
| Properties.ResetAfterHoldingLeavesNoCapital | trading_simulator.py:27-36 | after a trial that ended holding the target, reset leaves `value` at zero; the next trial starts without capital, and its opening BUY holds nothing and books a portfolio value of 0 |
| Properties.StepKeepsDrained | trading_simulator.py:124-139 | without capital, no step acquires anything: the target is not held and the day's portfolio value is 0 |
| Properties.RunKeepsDrained | trading_simulator.py:124-139 | a trial that starts without capital holds nothing on any day |
| Properties.WorkedTrial | trading_simulator.py:38-84 | closes 100, 110, 99, returns 0, 0.10, −0.10, capital 1000, actions BUY, BUY, SELL: rewards −0.0015, 0.10, 0.09975; portfolio values 1000, 1100, 990; the trial ends with 990 in base |

## Notes on the source's behaviour

- Stepping past the last day: `step` indexes `dates[_step]` at
  trading_simulator.py:47 with no bounds check, so the call fails with an
  IndexError. `Step` therefore requires the cursor to be on one of the quoted
  days (`InRange`: `cursor < |quotes|`). The last day can still be stepped.
- An invalid action: the assertion at trading_simulator.py:45 fails before any
  table, the cursor or `value` changes. `StepNamed` returns an `InvalidAction`
  error and produces no state.
- `reset` and the capital: trading_simulator.py:27-36 rewinds the cursor and
  reallocates the tables but does not touch `value`, which
  trading_simulator.py:103 overwrote with the last day's base holding. After a
  trial that ended holding the target, the next trial therefore starts with
  zero capital and holds nothing on any day. `ResetAfterHoldingLeavesNoCapital`
  and `RunKeepsDrained` prove this. The model keeps the code's behaviour,
  because carrying capital from one trial to the next may be intended.

## Left out

- agent.py is not part of this model. Every method there is a stub:
  - `build_state` returns nothing.
  - `create_q` only indexes the table.
  - `choose_action` is always uniformly random.
  - `learn` returns a sum without storing it.
  - No epsilon decay or Q-update exists to model.
- market_env.py is not part of this model. It only asserts the action name,
  which `ParseAction` covers, and delegates to the simulator and the data
  source.
- poloniex_data_source.py is not part of this model. It does network I/O and
  builds the pandas frame with rolling means and `pct_change`. The model takes
  the resulting closes and daily returns as its input `quotes`.
- The pandas DataFrame construction is not modelled. The pair-name split and
  the column bookkeeping (trading_simulator.py:17, 142-160) become the fixed
  two-column `Pair` and one `Row` per quoted day.
- Floating point is not modelled. Amounts are exact rationals, so 0.15 / 100.0
  is exactly 0.0015, and value / price × price gives back value exactly, which
  IEEE doubles may not.
- The `info` dictionary is not returned as a separate value. It returns
  references to the mutable tables, and the model returns the next state
  instead, whose `book` holds them.
- Simulator.Step: requires a nonzero close on a day where a BUY opens a position,
  because trading_simulator.py:132 divides `value` by the close. With a zero
  close the code would store an IEEE infinity for a positive `value`, a negative
  infinity for a negative `value`, and NaN (0/0) for a zero `value`, which is the
  drained state after a trial that ended holding the target. Exact rationals
  have none of these values.
- Simulator.New: takes the trading cost as an explicit argument. The
  constructor's default of 0.0025 (trading_simulator.py:13) is not modelled,
  because `ConfiguredCostIsOverwritten` shows the stored cost never changes a
  step's result.
- Simulator.BuyTrade: requires a nonzero price when the BUY opens a position,
  for the same division at trading_simulator.py:132.
- Simulator.StepNamed: requires a nonzero close when the name is "BUY" and the
  BUY opens a position, for the same division at trading_simulator.py:132.
- Invariants.Run: requires every close to be nonzero, so that each opening BUY
  in the run can divide by the price.

=== FILE: invariants.dfy ===
/** Invariants of the simulator's reachable states, and runs of several steps. */
module Invariants {
  import opened Ledger
  import opened Simulator

  /** Every close price is nonzero, so an opening BUY can always divide by it. */
  predicate NonzeroCloses(quotes: seq<Quote>) {
    forall d :: 0 <= d < |quotes| ==> quotes[d].close != 0.0
  }

  /** Every close price is positive. */
  predicate PositiveCloses(quotes: seq<Quote>) {
    forall d :: 0 <= d < |quotes| ==> quotes[d].close > 0.0
  }

  /** A day that has been stepped through: holdings follow the trades, values
      mark the holdings at the day's close, the portfolio value is their sum and
      the action log holds BUY or SELL. */
  predicate Booked(q: Quote, row: Row) {
    && row.holding == HeldPair(row.trade)
    && row.valuation == Pair(row.holding.base, q.close * row.holding.target)
    && row.portfolio == row.valuation.base + row.valuation.target
    && (row.action == 1 || row.action == -1)
  }

  /** The invariant of every state reachable from the constructor or `Reset`:
      the days before the cursor are booked, the rest are still blank, and
      `value` is the last booked day's base holding. */
  predicate Consistent(s: Sim) {
    && Shaped(s)
    && (forall d :: 0 <= d < s.cursor ==> Booked(s.quotes[d], s.book[d]))
    && (forall d :: s.cursor <= d < |s.book| ==> s.book[d] == BlankRow)
    && (s.cursor > 0 ==> s.value == s.book[s.cursor - 1].holding.base)
  }

  /** A consistent state with positive prices whose capital sits in exactly one
      symbol on every booked day, and is positive before the first day. */
  predicate Invested(s: Sim) {
    && Consistent(s)
    && PositiveCloses(s.quotes)
    && (s.cursor == 0 ==> s.value > 0.0)
    && (forall d :: 0 <= d < s.cursor ==> ExactlyOnePositive(s.book[d].holding))
  }

  /** The constructor's state satisfies the invariant, and is invested when
      it starts with positive capital and positive prices. */
  lemma NewIsConsistent(quotes: seq<Quote>, value: real, cost: real)
    ensures Consistent(New(quotes, value, cost))
    ensures value > 0.0 && PositiveCloses(quotes) ==> Invested(New(quotes, value, cost))
  {
  }

  /** So does every state `Reset` returns. */
  lemma ResetIsConsistent(s: Sim)
    ensures Consistent(Reset(s))
    ensures s.value > 0.0 && PositiveCloses(s.quotes) ==> Invested(Reset(s))
  {
    NewIsConsistent(s.quotes, s.value, s.tradingCost);
  }

  /** One step books the cursor's day and keeps the invariant. */
  lemma StepKeepsConsistent(s: Sim, a: Action)
    requires Consistent(s) && CanStep(s, a)
    ensures Consistent(Step(s, a).next)
    ensures Booked(s.quotes[s.cursor], Step(s, a).next.book[s.cursor])
  {
    var c := s.cursor;
    var next := Step(s, a).next;
    assert forall d :: 0 <= d < |s.book| && d != c ==> next.book[d] == s.book[d];
  }

  /** One step from an invested state keeps the capital in exactly one symbol. */
  lemma StepKeepsInvested(s: Sim, a: Action)
    requires Invested(s) && InRange(s)
    ensures CanStep(s, a)
    ensures Invested(Step(s, a).next)
    ensures ExactlyOnePositive(Step(s, a).next.book[s.cursor].holding)
  {
    var c := s.cursor;
    var price := s.quotes[c].close;
    assert price > 0.0;
    StepKeepsConsistent(s, a);
    var h := Step(s, a).next.book[c].holding;
    if c > 0 {
      var prev := s.book[c - 1];
      assert Booked(s.quotes[c - 1], prev) && ExactlyOnePositive(prev.holding);
      if !Trades(s, a) {
        assert h == prev.holding;
      }
    }
    assert ExactlyOnePositive(h);
  }

  /** The outcome of stepping through a sequence of actions. */
  datatype Trial = Trial(final: Sim, rewards: seq<real>, holding: seq<bool>)

  /** The simulator stepped once per action, in order. */
  function Run(s: Sim, acts: seq<Action>): (r: Trial)
    requires Shaped(s) && NonzeroCloses(s.quotes)
    requires s.cursor + |acts| <= |s.quotes|
    ensures Shaped(r.final) && r.final.quotes == s.quotes
    ensures r.final.cursor == s.cursor + |acts|
    ensures |r.rewards| == |acts| && |r.holding| == |acts|
    // days before the starting cursor are left alone
    ensures r.final.book[..s.cursor] == s.book[..s.cursor]
    decreases |acts|
  {
    if acts == [] then Trial(s, [], [])
    else
      var o := Step(s, acts[0]);
      var rest := Run(o.next, acts[1..]);
      assert o.next.book[..s.cursor] == s.book[..s.cursor];
      assert rest.final.book[..s.cursor] == o.next.book[..o.next.cursor][..s.cursor];
      Trial(rest.final, [o.reward] + rest.rewards, [o.holding] + rest.holding)
  }

  /** A run logs each action on its own day, and each holding flag it returns
      is the target holding booked for that day. */
  lemma {:induction false} RunBooksEachDay(s: Sim, acts: seq<Action>)
    requires Shaped(s) && NonzeroCloses(s.quotes)
    requires s.cursor + |acts| <= |s.quotes|
    ensures forall i :: 0 <= i < |acts| ==>
      Run(s, acts).final.book[s.cursor + i].action == ActionCode(acts[i])
    ensures forall i :: 0 <= i < |acts| ==>
      (Run(s, acts).holding[i] <==> Run(s, acts).final.book[s.cursor + i].holding.target > 0.0)
    decreases |acts|
  {
    if acts != [] {
      var c := s.cursor;
      var o := Step(s, acts[0]);
      var rest := Run(o.next, acts[1..]);
      var r := Run(s, acts);
      assert r.final == rest.final && r.holding == [o.holding] + rest.holding;
      RunBooksEachDay(o.next, acts[1..]);
      assert rest.final.book[c] == rest.final.book[..o.next.cursor][c] == o.next.book[c];
      forall i | 0 < i < |acts|
        ensures r.final.book[c + i].action == ActionCode(acts[i])
        ensures r.holding[i] <==> r.final.book[c + i].holding.target > 0.0
      {
        assert acts[1..][i - 1] == acts[i];
        assert r.holding[i] == rest.holding[i - 1];
        assert c + i == o.next.cursor + (i - 1);
      }
    }
  }

  /** Every run keeps the invariant. */
  lemma {:induction false} RunKeepsConsistent(s: Sim, acts: seq<Action>)
    requires Consistent(s) && NonzeroCloses(s.quotes)
    requires s.cursor + |acts| <= |s.quotes|
    ensures Consistent(Run(s, acts).final)
    decreases |acts|
  {
    if acts != [] {
      StepKeepsConsistent(s, acts[0]);
      RunKeepsConsistent(Step(s, acts[0]).next, acts[1..]);
    }
  }

  /** Every run from an invested state stays invested. */
  lemma {:induction false} RunKeepsInvested(s: Sim, acts: seq<Action>)
    requires Invested(s)
    requires s.cursor + |acts| <= |s.quotes|
    ensures NonzeroCloses(s.quotes)
    ensures Invested(Run(s, acts).final)
    decreases |acts|
  {
    if acts != [] {
      StepKeepsInvested(s, acts[0]);
      RunKeepsInvested(Step(s, acts[0]).next, acts[1..]);
    }
  }

  /** A whole trial from the constructor with positive capital and positive
      prices: on every day exactly one symbol has a positive holding, holdings
      are never negative, the portfolio value is the sum of both values, and
      the returned flag says whether the target is held. */
  lemma TrialInvariant(quotes: seq<Quote>, value: real, cost: real, acts: seq<Action>)
    requires value > 0.0 && PositiveCloses(quotes)
    requires |acts| <= |quotes|
    ensures NonzeroCloses(quotes)
    ensures var r := Run(New(quotes, value, cost), acts);
      forall d :: 0 <= d < |acts| ==>
        && ExactlyOnePositive(r.final.book[d].holding)
        && r.final.book[d].holding.base >= 0.0 && r.final.book[d].holding.target >= 0.0
        && r.final.book[d].portfolio == r.final.book[d].valuation.base + r.final.book[d].valuation.target
        && (r.holding[d] <==> r.final.book[d].holding.target > 0.0)
  {
    var s := New(quotes, value, cost);
    NewIsConsistent(quotes, value, cost);
    RunKeepsInvested(s, acts);
    RunBooksEachDay(s, acts);
    var r := Run(s, acts);
    forall d | 0 <= d < |acts|
      ensures r.final.book[d].holding.base >= 0.0 && r.final.book[d].holding.target >= 0.0
      ensures r.final.book[d].portfolio == r.final.book[d].valuation.base + r.final.book[d].valuation.target
    {
      assert Booked(quotes[d], r.final.book[d]);
    }
  }
}

=== FILE: ledger.dfy ===
/** The per-day records the trading simulator keeps for its fixed two-symbol
    pair (a base currency and a target asset). Amounts are exact rationals. */
module Ledger {

  /** One day's figures for the two symbol columns of a ledger table. */
  datatype Pair = Pair(base: real, target: real)

  /** Zero in both columns. */
  const Blank: Pair := Pair(0.0, 0.0)

  /** One row of the price frame: the pair's close and its daily return. */
  datatype Quote = Quote(close: real, dailyReturn: real)

  /** One day of the ledger: the row of each of the trades, holdings and values
      tables, the portfolio value, and the action-log entry (1 for BUY, -1 for
      SELL, 0 while the day has not been stepped). */
  datatype Row = Row(trade: Pair, holding: Pair, valuation: Pair, portfolio: real, action: int)

  /** A freshly allocated day. */
  const BlankRow: Row := Row(Blank, Blank, Blank, 0.0, 0)

  /** A holding is the day's trade when that trade is positive, otherwise zero. */
  function Held(trade: real): (h: real)
    ensures h >= 0.0
    ensures h > 0.0 <==> trade > 0.0
    ensures h > 0.0 ==> h == trade
  {
    if trade <= 0.0 then 0.0 else trade
  }

  /** Column-wise `Held`. */
  function HeldPair(trade: Pair): (h: Pair)
    ensures h.base >= 0.0 && h.target >= 0.0
  {
    Pair(Held(trade.base), Held(trade.target))
  }

  /** A zero-filled ledger of `n` days. */
  function BlankBook(n: nat): (book: seq<Row>)
    ensures |book| == n
    ensures forall d :: 0 <= d < n ==> book[d] == BlankRow
  {
    seq(n, _ => BlankRow)
  }

  /** Exactly one of the two symbols has a positive amount. */
  predicate ExactlyOnePositive(p: Pair) {
    (p.base > 0.0) != (p.target > 0.0)
  }
}

=== FILE: properties.dfy ===
/** Properties of single steps: the branch policy, the conversions an opening
    BUY and a closing SELL make, the reward's sign, and a worked trial. */
module Properties {
  import opened Ledger
  import opened Simulator
  import opened Invariants

  /** The action names round-trip through `ParseAction`. */
  lemma ActionNamesRoundTrip(a: Action)
    ensures ParseAction(ActionName(a)) == Ok(a)
    ensures ActionCode(a) == (if ActionName(a) == "BUY" then 1 else -1)
  {
  }

  /** BUY while holding, or SELL while not holding, repeats the previous day:
      same trades, same holdings, same holding flag, no cost, and the previous
      holdings re-marked at the day's close. */
  lemma CarryForwardKeepsHoldings(s: Sim, a: Action)
    requires Consistent(s) && CanStep(s, a)
    requires s.cursor > 0 && !Trades(s, a)
    ensures var r := Step(s, a); var prev := s.book[s.cursor - 1];
      && r.next.book[s.cursor].trade == prev.trade
      && r.next.book[s.cursor].holding == prev.holding
      && (r.holding <==> prev.holding.target > 0.0)
      && r.next.tradingCost == 0.0
      && r.next.value == s.value
      && r.next.book[s.cursor].portfolio == prev.holding.base + s.quotes[s.cursor].close * prev.holding.target
  {
    assert Booked(s.quotes[s.cursor - 1], s.book[s.cursor - 1]);
  }

  /** A SELL on the first day of a fresh ledger has nothing to close: the
      whole capital stays in base, no cost is charged and the reward is the
      negated return. */
  lemma FirstDaySellKeepsCapital(s: Sim)
    requires Consistent(s) && InRange(s) && s.cursor == 0
    ensures var r := Step(s, Sell);
      && r.next.book[0].trade == Pair(s.value, 0.0)
      && r.next.book[0].holding == Pair(Held(s.value), 0.0)
      && !r.holding
      && r.next.tradingCost == 0.0
      && r.reward == -s.quotes[0].dailyReturn
  {
  }

  /** An opening BUY converts the whole capital into value/price target units,
      charges the buy cost, leaves no base, and books a portfolio value equal to
      the capital it converted. */
  lemma OpeningBuyConverts(s: Sim)
    requires Consistent(s) && InRange(s) && BuyOpens(s)
    requires s.value > 0.0 && s.quotes[s.cursor].close > 0.0
    ensures var r := Step(s, Buy); var price := s.quotes[s.cursor].close;
      && r.next.book[s.cursor].trade == Pair(-s.value, s.value / price)
      && r.next.book[s.cursor].holding == Pair(0.0, s.value / price)
      && r.holding
      && r.next.value == 0.0
      && r.next.tradingCost == BuyCost
      && r.next.book[s.cursor].portfolio == s.value
  {
    var price := s.quotes[s.cursor].close;
    var r := Step(s, Buy);
    assert r.next.book[s.cursor].trade.target == s.value / price;
    assert s.value / price > 0.0;
  }

  /** A closing SELL converts the previous target holding h into h * price
      base, charges the sell cost, leaves no target, and books a portfolio value
      equal to the proceeds. */
  lemma ClosingSellConverts(s: Sim)
    requires Consistent(s) && InRange(s) && SellCloses(s)
    requires s.quotes[s.cursor].close > 0.0
    ensures var r := Step(s, Sell); var price := s.quotes[s.cursor].close; var h := PrevHolding(s);
      && r.next.book[s.cursor].trade == Pair(h * price, -h)
      && r.next.book[s.cursor].holding == Pair(h * price, 0.0)
      && !r.holding
      && r.next.value == h * price
      && r.next.tradingCost == SellCost
      && r.next.book[s.cursor].portfolio == h * price
  {
    var price := s.quotes[s.cursor].close;
    assert PrevHolding(s) * price > 0.0;
  }

  /** The cost rate the constructor (or the previous step) left behind never
      influences a step: it is overwritten before the reward reads it. */
  lemma ConfiguredCostIsOverwritten(s: Sim, a: Action, cost: real)
    requires CanStep(s, a)
    ensures CanStep(s.(tradingCost := cost), a)
    ensures Step(s.(tradingCost := cost), a) == Step(s, a)
  {
    var t := s.(tradingCost := cost);
    var price := s.quotes[s.cursor].close;
    assert PrevHolding(t) == PrevHolding(s) && CarriedTrade(t) == CarriedTrade(s);
    assert BuyOpens(t) == BuyOpens(s);
    assert a == Buy ==> BuyTrade(t, price) == BuyTrade(s, price);
    assert SellTrade(t, price) == SellTrade(s, price);
  }

  /** The charged cost is one of the three rates, and is below one. */
  lemma ChargedCostIsARate(s: Sim, a: Action)
    requires CanStep(s, a)
    ensures var c := Step(s, a).next.tradingCost;
      (c == 0.0 || c == BuyCost || c == SellCost) && 0.0 <= c < 1.0
  {
  }

  /** Holding the target after the day's trade (past the first day) earns a
      reward with the sign of the day's return; staying out earns one with the
      opposite sign. */
  lemma RewardFollowsExposure(s: Sim, a: Action)
    requires CanStep(s, a)
    ensures var r := Step(s, a); var ret := s.quotes[s.cursor].dailyReturn;
      && (r.holding && s.cursor > 0 ==> (r.reward > 0.0 <==> ret > 0.0) && (r.reward < 0.0 <==> ret < 0.0))
      && (!r.holding ==> (r.reward > 0.0 <==> ret < 0.0) && (r.reward < 0.0 <==> ret > 0.0))
  {
    var r := Step(s, a);
    ChargedCostIsARate(s, a);
    var k := 1.0 - r.next.tradingCost;
    assert k > 0.0;
    var ret := s.quotes[s.cursor].dailyReturn;
    if ret > 0.0 {
      assert k * ret > 0.0;
    } else if ret < 0.0 {
      assert k * ret < 0.0;
    } else {
      assert k * ret == 0.0;
    }
  }

  /** On the first day a BUY always opens: it is charged exactly the buy cost
      and, when it leaves the target held, earns exactly the negated cost. */
  lemma FirstDayBuyCostsOnly(s: Sim)
    requires CanStep(s, Buy) && s.cursor == 0
    ensures Step(s, Buy).next.tradingCost == BuyCost
    ensures Step(s, Buy).holding ==> Step(s, Buy).reward == -BuyCost
  {
  }

  /** Reset does not restore the starting capital: after a trial that ended
      holding the target, `value` is zero, so the next trial starts drained and
      its opening BUY buys nothing. */
  lemma ResetAfterHoldingLeavesNoCapital(s: Sim)
    requires Invested(s) && s.cursor > 0
    requires s.book[s.cursor - 1].holding.target > 0.0
    ensures Reset(s).value == 0.0
    ensures CanStep(Reset(s), Buy)
    ensures !Step(Reset(s), Buy).holding
    ensures Step(Reset(s), Buy).next.book[0].portfolio == 0.0
    ensures Drained(Reset(s))
  {
    assert ExactlyOnePositive(s.book[s.cursor - 1].holding);
    assert s.quotes[0].close > 0.0;
  }

  /** A consistent state without capital: `value` is zero before the first
      day and nothing is held on any booked day. */
  predicate Drained(s: Sim) {
    && Consistent(s)
    && (s.cursor == 0 ==> s.value == 0.0)
    && (forall d :: 0 <= d < s.cursor ==> s.book[d].holding == Blank)
  }

  /** Without capital no action ever acquires anything: the step holds
      nothing and books a zero portfolio value. */
  lemma StepKeepsDrained(s: Sim, a: Action)
    requires Drained(s) && CanStep(s, a)
    ensures Drained(Step(s, a).next)
    ensures !Step(s, a).holding && Step(s, a).next.book[s.cursor].portfolio == 0.0
  {
    StepKeepsConsistent(s, a);
    var c := s.cursor;
    if c > 0 {
      assert Booked(s.quotes[c - 1], s.book[c - 1]);
      assert s.book[c - 1].holding == Blank;
    }
    assert Step(s, a).next.book[c].holding == Blank;
  }

  /** A trial that starts without capital stays empty on every day. */
  lemma {:induction false} RunKeepsDrained(s: Sim, acts: seq<Action>)
    requires Drained(s) && NonzeroCloses(s.quotes)
    requires s.cursor + |acts| <= |s.quotes|
    ensures Drained(Run(s, acts).final)
    ensures forall i :: 0 <= i < |acts| ==> !Run(s, acts).holding[i]
    decreases |acts|
  {
    if acts != [] {
      var o := Step(s, acts[0]);
      StepKeepsDrained(s, acts[0]);
      RunKeepsDrained(o.next, acts[1..]);
      var r := Run(s, acts);
      assert r.holding == [o.holding] + Run(o.next, acts[1..]).holding;
    }
  }

  /** The worked trial: closes 100, 110, 99 with daily returns 0, 0.10, -0.10,
      a capital of 1000 and the actions BUY, BUY, SELL. */
  const WorkedQuotes: seq<Quote> := [Quote(100.0, 0.0), Quote(110.0, 0.10), Quote(99.0, -0.10)]

  /** The worked trial's rewards are -0.0015, 0.10 and 0.09975, its portfolio
      values 1000, 1100 and 990, and it ends out of the market with 990 base. */
  lemma WorkedTrial(cost: real)
    ensures NonzeroCloses(WorkedQuotes)
    ensures var r := Run(New(WorkedQuotes, 1000.0, cost), [Buy, Buy, Sell]);
      && r.rewards == [-0.0015, 0.10, 0.09975]
      && r.holding == [true, true, false]
      && r.final.book[0].portfolio == 1000.0
      && r.final.book[1].portfolio == 1100.0
      && r.final.book[2].portfolio == 990.0
      && r.final.value == 990.0
      && r.final.book[2].holding == Pair(990.0, 0.0)
  {
    var s0 := New(WorkedQuotes, 1000.0, cost);
    var o0 := Step(s0, Buy);
    assert o0.next.book[0].holding == Pair(0.0, 10.0);
    var o1 := Step(o0.next, Buy);
    assert o1.next.book[1].holding == Pair(0.0, 10.0);
    var o2 := Step(o1.next, Sell);
    assert o2.next.book[2].holding == Pair(990.0, 0.0);
    var r2 := Run(o2.next, []);
    var r1 := Run(o1.next, [Sell]);
    assert [Sell][1..] == [];
    assert r1 == Trial(o2.next, [o2.reward], [o2.holding]);
    var r0 := Run(o0.next, [Buy, Sell]);
    assert [Buy, Sell][1..] == [Sell];
    assert r0 == Trial(o2.next, [o1.reward, o2.reward], [o1.holding, o2.holding]);
    assert [Buy, Buy, Sell][1..] == [Buy, Sell];
    assert Run(s0, [Buy, Buy, Sell]) == Trial(o2.next, [o0.reward, o1.reward, o2.reward], [o0.holding, o1.holding, o2.holding]);
  }
}

=== FILE: simulator.dfy ===
/** The trading simulator: a per-day ledger for one base/target pair that
    `Step` advances one day at a time, returning the day's reward. */
module Simulator {
  import opened Ledger

  /** The simulator's two actions; no HOLD exists. */
  datatype Action = Buy | Sell

  /** Why a named action was refused. */
  datatype StepError = InvalidAction(name: string)

  datatype Result<+T> = Ok(value: T) | Err(error: StepError)

  /** Cost charged by a BUY that opens a position (0.15%). */
  const BuyCost: real := 0.15 / 100.0
  /** Cost charged by a SELL that closes a position (0.25%). */
  const SellCost: real := 0.25 / 100.0

  function ActionName(a: Action): string {
    match a
    case Buy => "BUY"
    case Sell => "SELL"
  }

  /** The entry written into the action log: 1 for BUY, -1 for SELL. */
  function ActionCode(a: Action): (code: int)
    ensures code == 1 || code == -1
    ensures code == 1 <==> a == Buy
  {
    if a == Buy then 1 else -1
  }

  /** Accepts exactly the two action names of the vocabulary. */
  function ParseAction(name: string): (r: Result<Action>)
    ensures r.Ok? <==> name == "BUY" || name == "SELL"
    ensures r.Ok? ==> ActionName(r.value) == name
    ensures r.Err? ==> r.error == InvalidAction(name)
  {
    if name == "BUY" then Ok(Buy)
    else if name == "SELL" then Ok(Sell)
    else Err(InvalidAction(name))
  }

  /** The simulator's whole state. `value` is the base amount an opening BUY
      converts; `tradingCost` is the cost charged by the last step (the
      constructor's argument until the first step overwrites it); `book` holds
      one ledger row per quoted day. */
  datatype Sim = Sim(quotes: seq<Quote>, value: real, tradingCost: real, book: seq<Row>, cursor: nat)

  /** The ledger has one row per quoted day and the cursor is within them. */
  predicate Shaped(s: Sim) {
    |s.book| == |s.quotes| && s.cursor <= |s.quotes|
  }

  /** The constructor: a zero-filled ledger and the cursor on the first day. */
  function New(quotes: seq<Quote>, value: real, tradingCost: real): (s: Sim)
    ensures Shaped(s) && s.cursor == 0 && s.quotes == quotes
    ensures forall d :: 0 <= d < |quotes| ==> s.book[d] == BlankRow
    ensures s.value == value && s.tradingCost == tradingCost
  {
    Sim(quotes, value, tradingCost, BlankBook(|quotes|), 0)
  }

  /** Rewinds to the first day and zeroes every table and the action log;
      `value` and the last charged cost are kept. */
  function Reset(s: Sim): (r: Sim)
    ensures Shaped(r) && r.cursor == 0 && r.quotes == s.quotes
    ensures forall d :: 0 <= d < |s.quotes| ==> r.book[d] == BlankRow
    ensures r.value == s.value && r.tradingCost == s.tradingCost
  {
    New(s.quotes, s.value, s.tradingCost)
  }

  /** A step is possible on a shaped state whose cursor is before the end. */
  predicate InRange(s: Sim) {
    Shaped(s) && s.cursor < |s.quotes|
  }

  /** The day the trade branches look back at: the previous day, or the
      current day itself on the first day. */
  function PrevDay(s: Sim): (p: nat)
    requires InRange(s)
    ensures p < |s.book|
    ensures s.cursor == 0 ==> p == 0
    ensures s.cursor > 0 ==> p + 1 == s.cursor
  {
    if s.cursor == 0 then 0 else s.cursor - 1
  }

  /** The target holding the trade branches look back at. */
  function PrevHolding(s: Sim): real
    requires InRange(s)
  {
    s.book[PrevDay(s)].holding.target
  }

  /** The trades a carry-forward copies: the previous day's, or on the first
      day the first day's own, after its base trade is seeded with `value`. */
  function CarriedTrade(s: Sim): (t: Pair)
    requires InRange(s)
    ensures s.cursor == 0 ==> t == Pair(s.value, s.book[0].trade.target)
    ensures s.cursor > 0 ==> t == s.book[s.cursor - 1].trade
  {
    if s.cursor == 0 then s.book[0].trade.(base := s.value) else s.book[s.cursor - 1].trade
  }

  /** Whether a BUY opens a position: on the first day, or when the previous
      day's target holding is zero. */
  predicate BuyOpens(s: Sim)
    requires InRange(s)
  {
    s.cursor == 0 || PrevHolding(s) == 0.0
  }

  /** Whether a SELL closes a position: the previous day's target holding is
      positive. */
  predicate SellCloses(s: Sim)
    requires InRange(s)
  {
    PrevHolding(s) > 0.0
  }

  /** Whether the action trades, rather than carrying the previous trades forward. */
  predicate Trades(s: Sim, a: Action)
    requires InRange(s)
  {
    if a == Buy then BuyOpens(s) else SellCloses(s)
  }

  /** What `Step` needs: an in-range cursor, and a nonzero close on a day an
      opening BUY divides by it. */
  predicate CanStep(s: Sim, a: Action) {
    InRange(s) && (a == Buy && BuyOpens(s) ==> s.quotes[s.cursor].close != 0.0)
  }

  /** A day's trades and the cost charged for them. */
  datatype Ticket = Ticket(trade: Pair, cost: real)

  /** `_buy`: an opening BUY gives up all of `value` in base for target units
      at `price`; otherwise the previous trades are carried forward at no cost. */
  function BuyTrade(s: Sim, price: real): (t: Ticket)
    requires InRange(s)
    requires BuyOpens(s) ==> price != 0.0
    ensures BuyOpens(s) ==> t.cost == BuyCost && t.trade.base == -s.value
    ensures BuyOpens(s) ==> price * t.trade.target == s.value
    // an opening BUY is value-neutral at the day's price
    ensures BuyOpens(s) ==> t.trade.base + price * t.trade.target == 0.0
    ensures !BuyOpens(s) ==> t == Ticket(CarriedTrade(s), 0.0)
  {
    if BuyOpens(s) then Ticket(Pair(-s.value, s.value / price), BuyCost)
    else Ticket(CarriedTrade(s), 0.0)
  }

  /** `_sell`: a closing SELL gives up the whole previous target holding for
      base at `price`; otherwise the previous trades are carried forward at no
      cost. */
  function SellTrade(s: Sim, price: real): (t: Ticket)
    requires InRange(s)
    ensures SellCloses(s) ==> t.cost == SellCost && t.trade.target == -PrevHolding(s)
    ensures SellCloses(s) ==> t.trade.base == price * PrevHolding(s)
    // a closing SELL is value-neutral at the day's price
    ensures SellCloses(s) ==> t.trade.base + price * t.trade.target == 0.0
    ensures !SellCloses(s) ==> t == Ticket(CarriedTrade(s), 0.0)
  {
    var h := PrevHolding(s);
    if h > 0.0 then Ticket(Pair(h * price, -h), SellCost)
    else Ticket(CarriedTrade(s), 0.0)
  }

  /** A day's holdings and their mark-to-market values. */
  datatype Marked = Marked(holding: Pair, valuation: Pair)

  /** `_update_holdings_and_values`: each holding is the day's trade when that
      is positive and zero otherwise; the target is marked at `price` and a
      base unit is worth one. */
  function UpdateHoldingsAndValues(trade: Pair, price: real): (m: Marked)
    ensures m.holding.base >= 0.0 && m.holding.target >= 0.0
    ensures m.holding.base > 0.0 <==> trade.base > 0.0
    ensures m.holding.target > 0.0 <==> trade.target > 0.0
    ensures m.holding.base > 0.0 ==> m.holding.base == trade.base
    ensures m.holding.target > 0.0 ==> m.holding.target == trade.target
    ensures m.valuation.base == m.holding.base
    ensures m.valuation.target == price * m.holding.target
  {
    var h := HeldPair(trade);
    Marked(h, Pair(h.base, price * h.target))
  }

  function Abs(x: real): real {
    if x < 0.0 then -x else x
  }

  /** A return scaled by one minus a cost: for a cost below one it keeps the
      return's sign, and for a non-negative cost it is no larger in size. */
  function Scaled(cost: real, x: real): (y: real)
    ensures y == (1.0 - cost) * x
    ensures cost < 1.0 ==> (y > 0.0 <==> x > 0.0) && (y < 0.0 <==> x < 0.0)
    ensures 0.0 <= cost < 1.0 ==> -Abs(x) <= y <= Abs(x)
  {
    var k := 1.0 - cost;
    assert cost < 1.0 && x > 0.0 ==> k * x > 0.0;
    assert cost < 1.0 && x < 0.0 ==> k * x < 0.0;
    assert 0.0 <= cost < 1.0 && x > 0.0 ==> k * x <= 1.0 * x;
    assert 0.0 <= cost < 1.0 && x < 0.0 ==> k * x >= 1.0 * x;
    k * x
  }

  /** The reward for one day: the return scaled by one minus the charged cost,
      negated when the target is not held after the trade; on the first day a
      held target earns exactly the negated cost. */
  function Reward(holding: bool, firstDay: bool, cost: real, dailyReturn: real): (r: real)
    ensures holding && firstDay ==> r == -cost
    // otherwise, for a cost below one, the reward has the return's sign when
    // holding and the opposite sign when not, and never exceeds it in size
    ensures cost < 1.0 && holding && !firstDay ==>
      (r > 0.0 <==> dailyReturn > 0.0) && (r < 0.0 <==> dailyReturn < 0.0)
    ensures cost < 1.0 && !holding ==>
      (r > 0.0 <==> dailyReturn < 0.0) && (r < 0.0 <==> dailyReturn > 0.0)
    ensures 0.0 <= cost < 1.0 && !(holding && firstDay) ==>
      -Abs(dailyReturn) <= r <= Abs(dailyReturn)
  {
    if holding then
      (if firstDay then -cost else Scaled(cost, dailyReturn))
    else
      -Scaled(cost, dailyReturn)
  }

  /** The day's ticket for an action, at the day's close: `_buy` for BUY and
      `_sell` for SELL. */
  function DayTicket(s: Sim, a: Action): (t: Ticket)
    requires CanStep(s, a)
    ensures t.cost == (if !Trades(s, a) then 0.0 else if a == Buy then BuyCost else SellCost)
    ensures !Trades(s, a) ==> t.trade == CarriedTrade(s)
    ensures Trades(s, a) && a == Buy ==>
      t.trade == Pair(-s.value, s.value / s.quotes[s.cursor].close)
    ensures Trades(s, a) && a == Sell ==>
      t.trade == Pair(PrevHolding(s) * s.quotes[s.cursor].close, -PrevHolding(s))
  {
    var price := s.quotes[s.cursor].close;
    if a == Buy then BuyTrade(s, price) else SellTrade(s, price)
  }

  /** What one step returns: the advanced state (whose ledger is the step's
      diagnostic tables), the reward, and whether the target is held after the
      day's trade. */
  datatype StepResult = StepResult(next: Sim, reward: real, holding: bool)

  /** `step`: logs the action, trades, marks the day, books the portfolio
      value, computes the reward and advances the cursor by one day. */
  function Step(s: Sim, a: Action): (r: StepResult)
    requires CanStep(s, a)
    ensures Shaped(r.next) && r.next.quotes == s.quotes
    ensures r.next.cursor == s.cursor + 1
    // only the cursor's day of the ledger changes
    ensures r.next.book == s.book[s.cursor := r.next.book[s.cursor]]
    ensures r.next.book[s.cursor].action == ActionCode(a)
    // the charged cost depends only on the branch taken
    ensures r.next.tradingCost == (if !Trades(s, a) then 0.0 else if a == Buy then BuyCost else SellCost)
    ensures !Trades(s, a) ==> r.next.book[s.cursor].trade == CarriedTrade(s)
    // an opening BUY converts all of `value`; a closing SELL the whole
    // previous target holding
    ensures Trades(s, a) && a == Buy ==>
      r.next.book[s.cursor].trade == Pair(-s.value, s.value / s.quotes[s.cursor].close)
    ensures Trades(s, a) && a == Sell ==>
      r.next.book[s.cursor].trade == Pair(PrevHolding(s) * s.quotes[s.cursor].close, -PrevHolding(s))
    // holdings follow the day's trade and are never negative
    ensures r.next.book[s.cursor].holding == HeldPair(r.next.book[s.cursor].trade)
    ensures r.next.value == r.next.book[s.cursor].holding.base
    // the day's values are marked at the day's close
    ensures r.next.book[s.cursor].valuation ==
      Pair(r.next.book[s.cursor].holding.base, s.quotes[s.cursor].close * r.next.book[s.cursor].holding.target)
    // the portfolio value is the sum of both symbols' values
    ensures r.next.book[s.cursor].portfolio ==
      r.next.book[s.cursor].valuation.base + r.next.book[s.cursor].valuation.target
    ensures r.holding <==> r.next.book[s.cursor].holding.target > 0.0
    ensures !r.holding ==> r.reward == -((1.0 - r.next.tradingCost) * s.quotes[s.cursor].dailyReturn)
    ensures r.holding && s.cursor == 0 ==> r.reward == -r.next.tradingCost
    ensures r.holding && s.cursor > 0 ==> r.reward == (1.0 - r.next.tradingCost) * s.quotes[s.cursor].dailyReturn
  {
    var c := s.cursor;
    var price := s.quotes[c].close;
    var ticket := DayTicket(s, a);
    var m := UpdateHoldingsAndValues(ticket.trade, price);
    var row := Row(ticket.trade, m.holding, m.valuation, m.valuation.target + m.valuation.base, ActionCode(a));
    var holding := m.holding.target > 0.0;
    var reward := Reward(holding, c == 0, ticket.cost, s.quotes[c].dailyReturn);
    StepResult(s.(book := s.book[c := row], value := m.holding.base, tradingCost := ticket.cost, cursor := c + 1),
               reward, holding)
  }

  /** `step` on an action name: any name outside the vocabulary is refused
      before anything changes. */
  function StepNamed(s: Sim, name: string): (r: Result<StepResult>)
    requires InRange(s)
    requires name == "BUY" && BuyOpens(s) ==> s.quotes[s.cursor].close != 0.0
    ensures r.Ok? <==> name == "BUY" || name == "SELL"
    ensures r.Err? ==> r.error == InvalidAction(name)
    ensures r.Ok? ==> Shaped(r.value.next) && r.value.next.quotes == s.quotes
    ensures r.Ok? ==> r.value.next.cursor == s.cursor + 1
    ensures r.Ok? ==> r.value.next.book[s.cursor].action == (if name == "BUY" then 1 else -1)
    // a valid name performs exactly the step of the action it names
    ensures r.Ok? ==> r.value == Step(s, ParseAction(name).value)
  {
    match ParseAction(name)
    case Err(e) => Err(e)
    case Ok(a) => Ok(Step(s, a))
  }
}
